=== FILE: README.md ===
# RiceGuard grain analysis, modelled in Dafny

RiceGuard's backend sends a photograph of spread rice grains to a hosted
object detector. It then turns the detector's bounding boxes into a quality
report: how many grains are good, broken or chalky, how much foreign matter
there is, and the typical grain length and width in millimetres. This project
models that post-detection pipeline (`analyze_with_roboflow` after the
inference call, and the helpers it uses) and proves properties of it.

The model is in three modules:

- `Stats` (`stats.dfy`): the median that `np.median` computes. It is the
  middle of the sorted list, or the mean of the two middle values when the
  list has even length. The module proves that sorting yields an ascending
  permutation, that the median ignores order, that the median lies within
  the bounds of the data, and that it scales with a positive factor.
- `Helpers` (`helpers.dfy`): `clamp`, the label normaliser `norm` (lower-case,
  `-` to `_`, strip surrounding blanks), the label tests `is_good`,
  `is_broken`, `is_chalky` and `is_foreign`, and the geometric foreign-matter
  fallback `is_foreign_by_geometry`.
- `Pipeline` (`pipeline.dfy`): the pipeline itself. The prediction list is an
  input, and the configuration constants are a `Config` value;
  `DefaultConfig` holds the defaults from `backend/main.py:26-37`.
  - Specification functions describe each stage over a list of grains:
    `Retained`, `Calibrate`, `Judge`, `Tally`, `Lengths`, `Widths`,
    `CorrectChalky` and `Summary`. Each list function is defined from the
    end of its list, the same way the source's loops append.
  - Methods run the stages the way the source does: `KeepGrains`,
    `CalibrateGrains`, `ClassifyGrains`, `CapChalky` and `Analyze`. They use
    loops, mutable counters and lists that grow by appending. Each method is
    proved equal to its specification function.
  - Lemmas about the specification functions state what the pipeline
    promises.

Measurements are idealised as `real`. Products and quotients of
measurements are written with the small functions `Stats.Times` and
`Pipeline.Div`. They compute exactly `x * k` and `a / b`. They name the
products and quotients so that lemmas can be stated about them. Python's `int()`
on a float truncates toward zero, and `Pipeline.Trunc` models that.

What the code does, in the places where a reader might expect otherwise:

- There is no length-and-aspect rule for broken grains. A grain is broken
  when it is labelled broken, or when it is labelled good and is shorter than
  a fraction of the median good length.
- Foreign matter is found by label, or by the three-way geometry rule
  (width of 4 mm or more, aspect ratio at most 1.15, or area at least 4 times
  the median area). There are no minimum size thresholds.
- The total excludes foreign matter: `total = good + broken + chalky`.
- The averages are medians over every grain counted good, broken or chalky.
  Chalky grains are not excluded, and there is no mean mode.
- With no recorded grain, the averages are `CLAMP_LENGTH_MM_MIN` and
  `CLAMP_WIDTH_MM_MIN`. They are not 0 or empty.
- Chalky grains come only from the detector's label. The chalky count is
  then capped at `int(MAX_CHALKY_RATIO * total)`, and the excess is counted
  good.

## Model

| member | source | states |
|---|---|---|
| Helpers.Clamp | backend/main.py:90-91 | The result lies in `[lo, hi]` whenever `lo <= hi`. It is `v` when `v` is already in range, `lo` when `v` is below it, and `hi` when `v` is above it. |
| Helpers.LowerChar | backend/main.py:94 | An upper-case letter becomes its lower-case counterpart (code point plus 32). Every other character is unchanged, and no result is an upper-case letter. |
| Helpers.Lower | backend/main.py:94 | `c.lower()` keeps the length and lower-cases each character in place. |
| Helpers.DashToUnderscore | backend/main.py:94 | `replace("-", "_")` keeps the length, turns every `-` into `_` and leaves every other character unchanged. |
| Helpers.IsSpace | backend/main.py:94 | It has no contract of its own: it is the set of characters Python's `str.isspace` accepts, the blanks `strip()` removes. Its use is stated in `SkipBlanks`, `SkipBlanksBack`, `Strip` and `StripIsTrim`. |
| Helpers.SkipBlanks | backend/main.py:94 | It returns the first index at or after `i` that is not a blank, or the end of the string. Everything skipped is a blank. |
| Helpers.SkipBlanksBack | backend/main.py:94 | It returns the end of `s[lo..hi]` with trailing blanks removed. Everything dropped is a blank, and the last kept character is not. |
| Helpers.Strip | backend/main.py:94 | `strip()` never lengthens its input, and its result neither begins nor ends with a blank. |
| Helpers.StripIsTrim | backend/main.py:94 | `strip()` returns a contiguous run of the input. Only blanks lie before and after it, and it neither begins nor ends with a blank. |
| Helpers.Norm | backend/main.py:93-94 | `norm(c)` is no longer than `c` and neither begins nor ends with a blank. |
| Helpers.NormOfCapitalised | backend/main.py:93-94 | `norm("Good") == "good"`: a capitalised detector label matches the lower-case label tests. |
| Helpers.NormOfPaddedDashed | backend/main.py:93-94 | `norm(" chalky-grain\n") == "chalky_grain"`: padding is stripped and a dash becomes an underscore. |
| Helpers.NormChars | backend/main.py:93-94 | Every character of `norm(c)` is neither `-` nor an upper-case letter. The result neither begins nor ends with a blank. |
| Helpers.NormHasNoDash | backend/main.py:93-94 | `norm(c)` contains no `-`. |
| Helpers.NormIdempotent | backend/main.py:93-94 | `norm(norm(c)) == norm(c)`. |
| Helpers.Contains | backend/main.py:96-99 | A match needs `p` to be no longer than `s`, and a prefix match is a match. |
| Helpers.ContainsAt | backend/main.py:96-99 | Python's substring test `p in s`, as used by the label tests, holds exactly when `p` starts at some position of `s`. |
| Helpers.IsGood | backend/main.py:96 | `is_good(c)` holds exactly when "good" occurs in `c`, or `c` is exactly "whole" or "wholegrain". |
| Helpers.IsBroken | backend/main.py:97 | `is_broken(c)` holds exactly when "broken" occurs in `c`. |
| Helpers.IsChalky | backend/main.py:98 | `is_chalky(c)` holds exactly when "chalky" occurs in `c`. |
| Helpers.IsForeign | backend/main.py:99 | `is_foreign(c)` holds exactly when "foreign" occurs in `c`. |
| Helpers.IsForeignByGeometry | backend/main.py:101-113 | It is true exactly when `width_mm_raw >= 4.0`, or `aspect_ratio <= 1.15`, or `area_ratio >= 4.0`. |
| Stats.Insert | backend/main.py:141 | Inserting into a list makes it one element longer. |
| Stats.InsertPermutes | backend/main.py:141 | Inserting `x` adds exactly one `x` to the list's multiset. |
| Stats.InsertKeepsSorted | backend/main.py:141 | Inserting into an ascending list leaves it ascending. |
| Stats.Sort | backend/main.py:141 | Sorting keeps the length. |
| Stats.SortSorts | backend/main.py:141 | Sorting yields an ascending permutation of the input. |
| Stats.SortedUnique | backend/main.py:141 | Two ascending lists with the same elements are equal, so the sorted order `np.median` reads is unique. |
| Stats.Middle | backend/main.py:141 | For a sorted list, the middle value lies between the two central elements. It is the central element itself when the length is odd. |
| Stats.Median | backend/main.py:141 | The median of a non-empty list lies between two of the list's own elements. |
| Stats.MedianIgnoresOrder | backend/main.py:141 | Two lists with the same elements, in any order, have the same median. |
| Stats.TimesMonotone | backend/main.py:153-154 | Multiplying by a positive ratio preserves `<=` in both directions, so a grain's length stays at least its width in millimetres. |
| Stats.Scale | backend/main.py:144 | `[l * px_to_mm for l in ...]` keeps the length. |
| Stats.ScaleAt | backend/main.py:144 | Element `i` of the scaled list is element `i` of the input times the factor. |
| Stats.InsertScaled | backend/main.py:144 | Scaling by a positive factor commutes with insertion into a sorted position. |
| Stats.SortScaled | backend/main.py:144 | Scaling by a positive factor commutes with sorting. |
| Stats.MiddleScaled | backend/main.py:144 | The middle of a scaled sorted list is the scaled middle. |
| Stats.MedianScaled | backend/main.py:141-146 | The median of a list scaled by a positive factor is the median scaled by that factor. |
| Stats.MedianWithin | backend/main.py:208-209 | If every value lies in `[lo, hi]`, the median does too. |
| Stats.MedianPositive | backend/main.py:141 | The median of positive lengths is positive, so the rescaling never divides by zero. |
| Stats.MedianIgnoresOutlier | backend/main.py:208-209 | The median of `[2, 4, 4, 6, 100]` is 4: one spuriously large box does not move it. |
| Stats.MedianOfEvenLength | backend/main.py:208-209 | An even-length list gets the mean of its two middle values: the median of `[9, 1, 3, 7]` is 5. |
| Pipeline.Retained | backend/main.py:123-132 | The kept grains number at most the predictions. Every kept grain has `length_px >= width_px > 0`. |
| Pipeline.DefaultConfigIsValid | backend/main.py:26-37 | The default constants have positive calibration values, non-empty clamp ranges and a non-negative chalky ratio. So every conditional lemma below applies to them. |
| Pipeline.HasPositiveSides | backend/main.py:126 | It has no contract of its own: it is the test that keeps a box, both sides positive. Its properties are in `Orient`, `RetainedOne` and `DroppedPredictionIgnored`. |
| Pipeline.Orient | backend/main.py:128-132 | A kept grain carries the normalised class. Its length and width are the box's two sides, longer side first. A box with positive sides gives a well-formed grain. |
| Pipeline.RetainedOne | backend/main.py:124-132 | A single prediction yields its oriented grain exactly when both of its sides are positive. |
| Pipeline.RetainedSnoc | backend/main.py:124-132 | Appending a prediction appends its grain, if the prediction is kept, to the grain list. |
| Pipeline.RetainedConcat | backend/main.py:123-132 | Filtering a concatenation filters each part in turn, so the filter works one prediction at a time. |
| Pipeline.DroppedPredictionIgnored | backend/main.py:125-127 | Inserting a prediction with a non-positive side anywhere leaves the grain list, and hence every count, list and average, unchanged. |
| Pipeline.GoodLengthsPx | backend/main.py:138 | There are no more good lengths than grains. For kept grains, every good length is positive. |
| Pipeline.NoGoodLengths | backend/main.py:138-140 | `good_lengths_px` is empty exactly when no grain is labelled good, so the recalibration branch runs exactly when some grain is. |
| Pipeline.AreaMm2 | backend/main.py:148-156 | It has no contract of its own: it is one box's area in square millimetres, used for every entry of `areas_mm2` and for each grain's `area_mm2`. `AreasMm2`, `CollectAreas` and `Measure` are built on it. |
| Pipeline.AreasMm2 | backend/main.py:148 | There is one area per kept grain. |
| Pipeline.Calibrate | backend/main.py:137-149 | The calibrated pixel-to-mm ratio is positive. |
| Pipeline.CalibrationHitsTarget | backend/main.py:137-146 | When some grain is labelled good, the recalibrated median good length equals `TARGET_MEDIAN_GRAIN_LENGTH_MM` exactly. |
| Pipeline.CalibrationWithoutGoodGrains | backend/main.py:139-146 | With no grain labelled good, the configured `PX_TO_MM` is kept and the median good length is 0. |
| Pipeline.Measure | backend/main.py:153-158 | A kept grain's raw length in millimetres is at least its raw width, which is positive. |
| Pipeline.IsShort | backend/main.py:179 | Without a median good length, no grain is short. A short grain is strictly below `BROKEN_RELATIVE_LENGTH_FACTOR` times that median, so a grain exactly at the threshold is not short. |
| Pipeline.Judge | backend/main.py:160-185 | Every verdict is backed by the label. Chalky means labelled chalky and not broken. Good means labelled good and neither broken nor chalky. Broken means labelled broken or good. Skipped means no recognised label. A foreign label always gives foreign. |
| Pipeline.ForeignFirst | backend/main.py:160-167 | A grain is counted foreign exactly when it is labelled foreign, or its width is 4 mm or more, or its aspect ratio is at most 1.15, or its area ratio is at least 4. |
| Pipeline.LabelledBrokenIsBroken | backend/main.py:169-171 | A non-foreign grain labelled broken is counted broken, whatever its length. |
| Pipeline.LabelledChalkyIsChalky | backend/main.py:173-175 | A non-foreign grain labelled chalky and not broken is counted chalky. |
| Pipeline.LabelledGoodIsGoodOrShort | backend/main.py:177-182 | A non-foreign grain whose only recognised label is good is counted broken exactly when the median good length is non-zero and the grain is shorter than `BROKEN_RELATIVE_LENGTH_FACTOR` times it. Otherwise it is counted good. |
| Pipeline.UnrecognisedIsSkipped | backend/main.py:184-185 | A non-foreign grain with no recognised label is skipped. |
| Pipeline.Skips | backend/main.py:184-185 | It lists the positions of the grains the loop skips, each once and in ascending order. Every listed position is skipped, and every skipped grain is listed. |
| Pipeline.Counts.Total | backend/main.py:192 | It has no contract of its own: it is `good + broken + chalky`, leaving foreign matter out. Its properties are in `TallyCountsEachGrainOnce`, `DimensionsMatchTally`, `CorrectChalky` and `Summary`. |
| Pipeline.Counts.Add | backend/main.py:164-185 | It has no contract of its own: it is the single `counts[...] += 1` a verdict causes, and nothing for a skipped grain. Its properties are in `ClassifyStep` and `TallyCountsEachGrainOnce`. |
| Pipeline.Recorded | backend/main.py:184-190 | It has no contract of its own: it holds for the verdicts good, broken and chalky, the grains whose dimensions are appended. Its properties are in `ClassifyStep` and `DimensionsMatchTally`. |
| Pipeline.Tally | backend/main.py:151-185 | It has no contract of its own. Its properties are in `TallyCountsEachGrainOnce`, `NoChalkyLabelNoChalky` and `ClassifyGrains`. |
| Pipeline.Lengths | backend/main.py:187-188 | It has no contract of its own. Its properties are in `DimensionsMatchTally`, `DimensionsInRange` and `ClassifyGrains`. |
| Pipeline.Widths | backend/main.py:189-190 | It has no contract of its own. Its properties are in `DimensionsMatchTally`, `DimensionsInRange` and `ClassifyGrains`. |
| Pipeline.TallyCountsEachGrainOnce | backend/main.py:151-185 | Each grain increments at most one counter. The counters are non-negative and sum to the number of grains that were not skipped. |
| Pipeline.NoChalkyLabelNoChalky | backend/main.py:173-175 | If no grain is labelled chalky, the chalky counter stays 0. |
| Pipeline.DimensionsMatchTally | backend/main.py:187-190 | `lengths_mm` and `widths_mm` have equal length, and it equals good + broken + chalky before the chalky correction. |
| Pipeline.DimensionsInRange | backend/main.py:187-190 | Every recorded length lies in `[CLAMP_LENGTH_MM_MIN, CLAMP_LENGTH_MM_MAX]`, and every recorded width in `[CLAMP_WIDTH_MM_MIN, CLAMP_WIDTH_MM_MAX]`. |
| Pipeline.Trunc | backend/main.py:196 | `int(x)` truncates toward zero: it is the floor for non-negative `x` and the ceiling for negative `x`. |
| Pipeline.CorrectChalky | backend/main.py:192-200 | The correction leaves the total, good + chalky, broken and foreign unchanged. It never raises chalky. With a positive total, chalky ends at or below `int(MAX_CHALKY_RATIO * total)`, and it changes only to that cap. Without a positive total, nothing changes. |
| Pipeline.ChalkyCapped | backend/main.py:194-200 | With a non-negative ratio, the corrected chalky count lies between 0 and `floor(MAX_CHALKY_RATIO * total)`, and good never decreases. |
| Pipeline.Summary | backend/main.py:192-209 | The reported total is good + broken + chalky and is non-negative, as are broken and foreign. The total plus foreign matter is at most the number of kept grains. |
| Pipeline.SummaryCounts | backend/main.py:192-207 | `total_grains` equals good + broken + chalky, both before and after the correction, and excludes foreign matter. Broken and foreign are the loop's counts. Chalky never grows, and with a non-negative ratio it is capped at `floor(ratio * total)`. |
| Pipeline.SummaryAveragesFallBack | backend/main.py:208-209 | There are as many recorded lengths and widths as `total_grains`. With a total of 0, the averages are exactly `CLAMP_LENGTH_MM_MIN` and `CLAMP_WIDTH_MM_MIN`. |
| Pipeline.SummaryAveragesInRange | backend/main.py:208-209 | The reported average length and width always lie in their clamp ranges. |
| Pipeline.EmptySummary | backend/main.py:202-209 | No detections give all counts 0 and the configured minima as averages. |
| Pipeline.KeepGrains | backend/main.py:123-132 | The filtering loop builds exactly `Retained(preds)`. |
| Pipeline.CollectGoodLengths | backend/main.py:138 | The loop that appends the length of each grain labelled good builds exactly `GoodLengthsPx(grains)`. |
| Pipeline.CollectAreas | backend/main.py:148 | The loop that appends each grain's area in square millimetres builds exactly `AreasMm2(grains, pxToMm)`. |
| Pipeline.CalibrateGrains | backend/main.py:137-149 | Collecting `good_lengths_px` and `areas_mm2`, recalibrating and taking the two medians computes exactly `Calibrate(grains, cfg)`. |
| Pipeline.ClassifyStep | backend/main.py:151-190 | One more grain extends the counters by that grain's verdict. It extends the lengths and widths by its clamped sizes exactly when the verdict is good, broken or chalky. |
| Pipeline.ClassifyGrains | backend/main.py:151-190 | The classification loop ends with the counters `Tally`, the lengths `Lengths` and the widths `Widths` of the grains. |
| Pipeline.CapChalky | backend/main.py:192-200 | The in-place correction of the counters computes exactly `CorrectChalky`. |
| Pipeline.Analyze | backend/main.py:118-211 | The whole pipeline returns `Summary(Retained(preds), cfg)`. So every `Summary` lemma above holds of its result. |

## Left out

- The inference call (`rf.infer`), the Roboflow client, image decoding and
  re-encoding (`to_base64_jpeg`), environment loading, the FastAPI app, its
  middleware and its endpoints. These are I/O, network and framework code.
  The prediction list is an input to `Pipeline.Analyze`, and the constants
  are a `Config` parameter.
- Malformed predictions (a missing `width`, `height` or `class` key, or a
  value that `float()` rejects) raise in the source. The model's predictions
  always carry a real width and height and a string class.
- `round(..., 2)` on the averages. The model reports the unrounded median.
- The fixed `note` string, which is a constant with no logic.
- Floating point: IEEE rounding, NaN and infinities, and the exact float
  value `np.median` returns. All arithmetic is on exact reals.
- Lower-casing covers ASCII letters only. The case mapping that Python's
  `str.lower` applies to non-ASCII letters is not modelled. Stripping uses
  the full set of characters that `str.isspace` accepts.
- Pipeline.Analyze: requires a positive `PX_TO_MM` and a positive
  `TARGET_MEDIAN_GRAIN_LENGTH_MM`. The source reads both from the
  environment without checking them. The model excludes configurations
  where either is zero or negative, and says nothing about what the source
  reports for them. Two cases show the source's behaviour. If the ratio in
  use is 0 (`PX_TO_MM = 0` with no good grain, or a target of 0 with some
  good grain), every aspect ratio at line 158 is 0. Every grain is then
  counted foreign, and no error is raised. If the ratio is negative,
  millimetre lengths and widths swap their order. The division at line 158
  fails only when a raw width is exactly `-1e-9`.
- Stats.Median: the median is specified by its sorted
  middle, and its order independence is proved. The rank characterisation
  (at least half the values on each side) is not stated.

=== FILE: helpers.dfy ===
/**
 * The small pure helpers of the RiceGuard backend: clamping a measurement
 * into a calibrated range, normalising a detector class label, the label
 * tests built on it, and the geometric fallback that flags foreign matter.
 */
module Helpers {

  function Min(a: real, b: real): real
  {
    if a <= b then a else b
  }

  function Max(a: real, b: real): real
  {
    if a >= b then a else b
  }

  /** `max(lo, min(v, hi))`: pulls `v` into `[lo, hi]`. */
  function Clamp(v: real, lo: real, hi: real): (r: real)
    ensures lo <= hi ==> lo <= r <= hi
    ensures lo <= v <= hi ==> r == v
    ensures v < lo ==> r == lo
    ensures lo <= hi < v ==> r == hi
  {
    Max(lo, Min(v, hi))
  }

  // ---------------------------------------------------------------------
  // Label normalisation: lower-case, '-' to '_', strip surrounding blanks.
  // ---------------------------------------------------------------------

  predicate IsUpper(c: char)
  {
    'A' <= c <= 'Z'
  }

  /** Lower-cases one character (ASCII letters only). */
  function LowerChar(c: char): (d: char)
    ensures !IsUpper(d)
    ensures IsUpper(c) ==> d as int == c as int + 32
    ensures !IsUpper(c) ==> d == c
  {
    if IsUpper(c) then (c as int + 32) as char else c
  }

  /** The characters Python's `str.isspace` accepts, which `str.strip()` removes. */
  predicate IsSpace(c: char)
  {
    || '\t' <= c <= '\r'
    || '\U{1C}' <= c <= ' '
    || c == '\U{85}' || c == '\U{A0}' || c == '\U{1680}'
    || '\U{2000}' <= c <= '\U{200A}'
    || c == '\U{2028}' || c == '\U{2029}' || c == '\U{202F}' || c == '\U{205F}' || c == '\U{3000}'
  }

  function Lower(s: string): (r: string)
    ensures |r| == |s|
    ensures forall i :: 0 <= i < |s| ==> r[i] == LowerChar(s[i])
  {
    seq(|s|, i requires 0 <= i < |s| => LowerChar(s[i]))
  }

  /** `s.replace("-", "_")`. */
  function DashToUnderscore(s: string): (r: string)
    ensures |r| == |s|
    ensures forall i :: 0 <= i < |s| ==> r[i] == if s[i] == '-' then '_' else s[i]
  {
    seq(|s|, i requires 0 <= i < |s| => if s[i] == '-' then '_' else s[i])
  }

  /** The index of the first non-blank character of `s` at or after `i` (or `|s|`). */
  function SkipBlanks(s: string, i: nat): (j: nat)
    requires i <= |s|
    ensures i <= j <= |s|
    ensures forall k :: i <= k < j ==> IsSpace(s[k])
    ensures j < |s| ==> !IsSpace(s[j])
    decreases |s| - i
  {
    if i < |s| && IsSpace(s[i]) then SkipBlanks(s, i + 1) else i
  }

  /** The end of `s[lo..hi]` once its trailing blanks are dropped. */
  function SkipBlanksBack(s: string, lo: nat, hi: nat): (j: nat)
    requires lo <= hi <= |s|
    ensures lo <= j <= hi
    ensures forall k :: j <= k < hi ==> IsSpace(s[k])
    ensures j > lo ==> !IsSpace(s[j - 1])
  {
    if hi > lo && IsSpace(s[hi - 1]) then SkipBlanksBack(s, lo, hi - 1) else hi
  }

  /** `s.strip()`: `s` without its leading and trailing blanks. */
  function Strip(s: string): (r: string)
    ensures |r| <= |s|
    ensures r == [] || (!IsSpace(r[0]) && !IsSpace(r[|r| - 1]))
  {
    var i := SkipBlanks(s, 0);
    s[i..SkipBlanksBack(s, i, |s|)]
  }

  /**
   * `Strip(s)` is the run of `s` that starts at the returned index, with only
   * blanks before and after it, and neither begins nor ends with a blank.
   */
  lemma StripIsTrim(s: string) returns (i: nat)
    ensures i + |Strip(s)| <= |s|
    ensures forall k :: 0 <= k < |Strip(s)| ==> Strip(s)[k] == s[i + k]
    ensures forall k :: 0 <= k < i ==> IsSpace(s[k])
    ensures forall k :: i + |Strip(s)| <= k < |s| ==> IsSpace(s[k])
    ensures Strip(s) == [] || (!IsSpace(Strip(s)[0]) && !IsSpace(Strip(s)[|Strip(s)| - 1]))
  {
    i := SkipBlanks(s, 0);
    var j := SkipBlanksBack(s, i, |s|);
    assert Strip(s) == s[i..j];
  }

  /** `norm(c)`: the form in which the pipeline keeps a detector's class label. */
  function Norm(c: string): (r: string)
    ensures |r| <= |c|
    ensures r == [] || (!IsSpace(r[0]) && !IsSpace(r[|r| - 1]))
  {
    Strip(DashToUnderscore(Lower(c)))
  }

  /** A normalised label has no '-', no upper-case letter and no blank at either end. */
  lemma NormChars(c: string)
    ensures forall k :: 0 <= k < |Norm(c)| ==> Norm(c)[k] != '-' && !IsUpper(Norm(c)[k])
    ensures Norm(c) == [] || (!IsSpace(Norm(c)[0]) && !IsSpace(Norm(c)[|Norm(c)| - 1]))
  {
    var l := Lower(c);
    var d := DashToUnderscore(l);
    var r := Strip(d);
    var i := StripIsTrim(d);
    forall k | 0 <= k < |r|
      ensures r[k] != '-' && !IsUpper(r[k])
    {
      var j := i + k;
      assert d[j] == if l[j] == '-' then '_' else l[j];
      assert l[j] == LowerChar(c[j]);
    }
  }

  /** A capitalised detector label normalises to the lower-case name the tests look for. */
  lemma NormOfCapitalised()
    ensures Norm("Good") == "good"
  {
    assert Lower("Good") == "good";
    assert DashToUnderscore("good") == "good";
    assert SkipBlanks("good", 0) == 0;
    assert SkipBlanksBack("good", 0, 4) == 4;
  }

  /** Padding is stripped and a dash becomes an underscore. */
  lemma NormOfPaddedDashed()
    ensures Norm(" chalky-grain\n") == "chalky_grain"
  {
    var c := " chalky-grain\n";
    var l := Lower(c);
    assert l == c;
    var d := DashToUnderscore(l);
    assert d == " chalky_grain\n" by {
      assert d[7] == '_';
    }
    assert IsSpace(d[0]) && !IsSpace(d[1]);
    assert SkipBlanks(d, 1) == 1;
    assert SkipBlanks(d, 0) == 1;
    assert IsSpace(d[13]) && !IsSpace(d[12]);
    assert SkipBlanksBack(d, 1, 13) == 13;
    assert SkipBlanksBack(d, 1, 14) == 13;
    assert d[1..13] == "chalky_grain";
  }

  /** A normalised label contains no '-'. */
  lemma NormHasNoDash(c: string)
    ensures '-' !in Norm(c)
  {
    NormChars(c);
  }

  /** Normalising twice is normalising once. */
  lemma NormIdempotent(c: string)
    ensures Norm(Norm(c)) == Norm(c)
  {
    var n := Norm(c);
    NormChars(c);
    assert Lower(n) == n;
    assert DashToUnderscore(n) == n;
    assert SkipBlanks(n, 0) == 0;
    assert SkipBlanksBack(n, 0, |n|) == |n|;
    assert n[0..|n|] == n;
  }

  // ---------------------------------------------------------------------
  // Label tests, applied to normalised labels.
  // ---------------------------------------------------------------------

  predicate StartsWith(s: string, p: string)
  {
    |p| <= |s| && s[..|p|] == p
  }

  /** `p` starts at some position of `s`: the meaning of Python's `p in s` for strings. */
  predicate Occurs(s: string, p: string)
  {
    exists i :: 0 <= i <= |s| && StartsWith(s[i..], p)
  }

  /** Python's `p in s` for strings, by scanning `s` from the front. */
  function Contains(s: string, p: string): (r: bool)
    ensures r ==> |p| <= |s|
    ensures StartsWith(s, p) ==> r
  {
    StartsWith(s, p) || (s != [] && Contains(s[1..], p))
  }

  /** `Contains` holds exactly when `p` starts at some position of `s`. */
  lemma {:induction false} ContainsAt(s: string, p: string)
    ensures Contains(s, p) <==> Occurs(s, p)
  {
    if s != [] {
      ContainsAt(s[1..], p);
      if !StartsWith(s, p) && !Contains(s[1..], p) {
        forall i | 0 <= i <= |s| ensures !StartsWith(s[i..], p) {
          if i > 0 {
            assert s[i..] == s[1..][i - 1..];
          }
        }
      }
      if StartsWith(s, p) {
        assert s[0..] == s;
      } else if Contains(s[1..], p) {
        var i :| 0 <= i <= |s[1..]| && StartsWith(s[1..][i..], p);
        assert s[1..][i..] == s[i + 1..];
        assert StartsWith(s[i + 1..], p);
      }
    } else {
      assert s[0..] == s;
    }
  }

  /** `is_good`: the label mentions "good", or is exactly "whole" or "wholegrain". */
  function IsGood(c: string): (r: bool)
    ensures r <==> Occurs(c, "good") || c == "whole" || c == "wholegrain"
  {
    ContainsAt(c, "good");
    Contains(c, "good") || c == "whole" || c == "wholegrain"
  }

  /** `is_broken`: the label mentions "broken". */
  function IsBroken(c: string): (r: bool)
    ensures r <==> Occurs(c, "broken")
  {
    ContainsAt(c, "broken");
    Contains(c, "broken")
  }

  /** `is_chalky`: the label mentions "chalky". */
  function IsChalky(c: string): (r: bool)
    ensures r <==> Occurs(c, "chalky")
  {
    ContainsAt(c, "chalky");
    Contains(c, "chalky")
  }

  /** `is_foreign`: the label mentions "foreign". */
  function IsForeign(c: string): (r: bool)
    ensures r <==> Occurs(c, "foreign")
  {
    ContainsAt(c, "foreign");
    Contains(c, "foreign")
  }

  // ---------------------------------------------------------------------
  // Geometric fallback for foreign matter.
  // ---------------------------------------------------------------------

  /** Raw width, in mm, from which a detection is too wide to be a rice grain. */
  const ForeignMinWidthMm: real := 4.0
  /** Aspect ratio up to which a detection is too round to be a rice grain. */
  const ForeignMaxAspect: real := 1.15
  /** Area, relative to the median area, from which a detection is an oversized blob. */
  const ForeignMinAreaRatio: real := 4.0

  /** `is_foreign_by_geometry`: the checks are tried in order and the first that fires answers. */
  function IsForeignByGeometry(widthMmRaw: real, aspectRatio: real, areaRatio: real): (r: bool)
    ensures r <==> widthMmRaw >= ForeignMinWidthMm || aspectRatio <= ForeignMaxAspect
                   || areaRatio >= ForeignMinAreaRatio
  {
    if widthMmRaw >= ForeignMinWidthMm then true
    else if aspectRatio <= ForeignMaxAspect then true
    else if areaRatio >= ForeignMinAreaRatio then true
    else false
  }
}

=== FILE: pipeline.dfy ===
/**
 * The post-detection pipeline of the RiceGuard backend (`analyze_with_roboflow`
 * in backend/main.py, from the detector's prediction list onwards): keep the
 * boxes with positive sides, calibrate the pixel-to-millimetre ratio on the
 * grains labelled good, classify each grain as foreign, broken, chalky or
 * good, record its clamped dimensions, cap the chalky count, and report the
 * median length and width.
 *
 * The specification is a set of functions over the list of kept grains
 * (`Retained`, `Calibrate`, `Judge`, `Tally`, `Lengths`, `Widths`,
 * `CorrectChalky`, `Summary`); the method `Analyze` computes the same result
 * step by step, with mutable counters, as the source does.
 */
module Pipeline {
  import opened Helpers
  import opened Stats

  /** The `1e-9` added to denominators in the source. */
  const Epsilon: real := 0.000000001

  /** One detector prediction: box width and height in pixels, and the class label. */
  datatype Prediction = Prediction(width: real, height: real, cls: string)

  /** A kept detection: normalised label, longer box side, shorter box side (pixels). */
  datatype Grain = Grain(cls: string, lengthPx: real, widthPx: real)

  /** The process-wide calibration constants read from the environment at start-up. */
  datatype Config = Config(
    pxToMm: real,                // PX_TO_MM
    targetMedianLengthMm: real,  // TARGET_MEDIAN_GRAIN_LENGTH_MM
    widthCorrection: real,       // WIDTH_CORRECTION_FACTOR
    lengthMinMm: real,           // CLAMP_LENGTH_MM_MIN
    lengthMaxMm: real,           // CLAMP_LENGTH_MM_MAX
    widthMinMm: real,            // CLAMP_WIDTH_MM_MIN
    widthMaxMm: real,            // CLAMP_WIDTH_MM_MAX
    brokenRelativeLength: real,  // BROKEN_RELATIVE_LENGTH_FACTOR
    maxChalkyRatio: real         // MAX_CHALKY_RATIO
  )

  /** The defaults used when the environment does not set a constant. */
  const DefaultConfig: Config := Config(0.18, 7.4, 0.42, 5.5, 9.5, 1.4, 2.8, 0.6, 0.35)

  /** Positive calibration constants: with them no denominator in the pipeline is zero. */
  predicate ValidConfig(cfg: Config)
  {
    cfg.pxToMm > 0.0 && cfg.targetMedianLengthMm > 0.0
  }

  /** The defaults have positive calibration constants and non-empty clamp ranges. */
  lemma DefaultConfigIsValid()
    ensures ValidConfig(DefaultConfig)
    ensures DefaultConfig.lengthMinMm <= DefaultConfig.lengthMaxMm
    ensures DefaultConfig.widthMinMm <= DefaultConfig.widthMaxMm
    ensures 0.0 <= DefaultConfig.maxChalkyRatio
  {
  }

  /** Which counter a grain increments; `Skipped` is a label the pipeline does not know. */
  datatype Verdict = Foreign | Broken | Chalky | Good | Skipped

  /** The `counts` dictionary. */
  datatype Counts = Counts(good: int, broken: int, chalky: int, foreign: int)
  {
    /** The grains that enter `total_grains`: foreign matter is left out. */
    function Total(): int
    {
      good + broken + chalky
    }

    function Add(v: Verdict): Counts
    {
      match v
      case Foreign => this.(foreign := foreign + 1)
      case Broken => this.(broken := broken + 1)
      case Chalky => this.(chalky := chalky + 1)
      case Good => this.(good := good + 1)
      case Skipped => this
    }
  }

  /** What calibration derives from the whole list before any grain is classified. */
  datatype Calibration = Calibration(pxToMm: real, medianGoodLengthMm: real, medianAreaMm2: real)

  /** One grain's measurements under a calibration. */
  datatype Measurement = Measurement(lengthMmRaw: real, widthMmRaw: real, areaRatio: real, aspectRatio: real)

  /** The response payload, without its fixed note. */
  datatype AnalysisResult = AnalysisResult(
    totalGrains: int,
    goodGrains: int,
    brokenGrains: int,
    foreignMatter: int,
    chalkyGrains: int,
    avgGrainLengthMm: real,
    avgGrainWidthMm: real
  )

  // ---------------------------------------------------------------------
  // Filtering the predictions.
  // ---------------------------------------------------------------------

  predicate HasPositiveSides(p: Prediction)
  {
    p.width > 0.0 && p.height > 0.0
  }

  /** A kept prediction, oriented so that its length is the longer side. */
  function Orient(p: Prediction): (g: Grain)
    ensures g.cls == Norm(p.cls)
    ensures g.lengthPx >= g.widthPx
    ensures multiset{g.lengthPx, g.widthPx} == multiset{p.width, p.height}
    ensures HasPositiveSides(p) ==> WellFormed(g)
  {
    Grain(Norm(p.cls), Max(p.width, p.height), Min(p.width, p.height))
  }

  predicate WellFormed(g: Grain)
  {
    g.lengthPx >= g.widthPx > 0.0
  }

  predicate AllWellFormed(gs: seq<Grain>)
  {
    forall i :: 0 <= i < |gs| ==> WellFormed(gs[i])
  }

  /** The `grains` list: every prediction with positive sides, oriented, in order. */
  function Retained(preds: seq<Prediction>): (gs: seq<Grain>)
    ensures |gs| <= |preds|
    ensures AllWellFormed(gs)
  {
    if preds == [] then []
    else
      var p := preds[|preds| - 1];
      var init := Retained(preds[..|preds| - 1]);
      if HasPositiveSides(p) then init + [Orient(p)] else init
  }

  lemma RetainedOne(p: Prediction)
    ensures Retained([p]) == if HasPositiveSides(p) then [Orient(p)] else []
  {
    assert [p][..0] == [];
  }

  /** Filtering a list extended by one prediction extends the filtered list by its grain, if kept. */
  lemma RetainedSnoc(s: seq<Prediction>, x: Prediction)
    ensures Retained(s + [x]) == Retained(s) + Retained([x])
  {
    assert (s + [x])[..|s|] == s;
    assert [x][..0] == [];
  }

  /** Filtering a concatenation filters each part. */
  lemma {:induction false} RetainedConcat(a: seq<Prediction>, b: seq<Prediction>)
    ensures Retained(a + b) == Retained(a) + Retained(b)
  {
    if b == [] {
      assert a + b == a;
    } else {
      var b', x := b[..|b| - 1], b[|b| - 1];
      assert b == b' + [x];
      assert a + b == (a + b') + [x];
      RetainedConcat(a, b');
      RetainedSnoc(a + b', x);
      RetainedSnoc(b', x);
    }
  }

  /** A prediction with a non-positive side leaves the kept grains, hence every output, unchanged. */
  lemma DroppedPredictionIgnored(a: seq<Prediction>, p: Prediction, b: seq<Prediction>)
    requires !HasPositiveSides(p)
    ensures Retained(a + [p] + b) == Retained(a + b)
  {
    RetainedConcat(a + [p], b);
    RetainedConcat(a, [p]);
    RetainedConcat(a, b);
    RetainedOne(p);
  }

  // ---------------------------------------------------------------------
  // Calibration.
  // ---------------------------------------------------------------------

  /** `good_lengths_px`: the pixel lengths of the grains labelled good, in order. */
  function GoodLengthsPx(gs: seq<Grain>): (ls: seq<real>)
    ensures |ls| <= |gs|
    ensures AllWellFormed(gs) ==> forall i :: 0 <= i < |ls| ==> ls[i] > 0.0
  {
    if gs == [] then []
    else
      var g := gs[|gs| - 1];
      var init := GoodLengthsPx(gs[..|gs| - 1]);
      if IsGood(g.cls) then init + [g.lengthPx] else init
  }

  /** `good_lengths_px` is empty exactly when no grain is labelled good. */
  lemma {:induction false} NoGoodLengths(gs: seq<Grain>)
    ensures GoodLengthsPx(gs) == [] <==> forall i :: 0 <= i < |gs| ==> !IsGood(gs[i].cls)
  {
    if gs != [] {
      var init := gs[..|gs| - 1];
      NoGoodLengths(init);
      if !IsGood(gs[|gs| - 1].cls) && GoodLengthsPx(init) == [] {
        forall i | 0 <= i < |gs| ensures !IsGood(gs[i].cls) {
          if i < |gs| - 1 {
            assert gs[i] == init[i];
          }
        }
      }
      if GoodLengthsPx(init) != [] {
        var i :| 0 <= i < |init| && IsGood(init[i].cls);
        assert gs[i] == init[i];
      }
    }
  }

  /** `a / b`, named so that lemmas can be stated about the quotients of measurements. */
  function Div(a: real, b: real): real
    requires b != 0.0
  {
    a / b
  }

  lemma TimesPositive(a: real, b: real)
    requires a > 0.0 && b > 0.0
    ensures Times(a, b) > 0.0
  {
  }

  lemma DivPositive(a: real, b: real)
    requires a > 0.0 && b > 0.0
    ensures Div(a, b) > 0.0
  {
  }

  lemma DivCancels(a: real, b: real)
    requires b != 0.0
    ensures Times(b, Div(a, b)) == a
  {
  }

  /** A grain's box area in square millimetres (line 148). */
  function AreaMm2(g: Grain, pxToMm: real): real
  {
    Times(Times(g.lengthPx, g.widthPx), Times(pxToMm, pxToMm))
  }

  /** `areas_mm2`: every grain's box area in square millimetres, in order. */
  function AreasMm2(gs: seq<Grain>, pxToMm: real): (areas: seq<real>)
    ensures |areas| == |gs|
  {
    if gs == [] then [] else AreasMm2(gs[..|gs| - 1], pxToMm) + [AreaMm2(gs[|gs| - 1], pxToMm)]
  }

  /**
   * Lines 137-149: the ratio is rescaled so that the median good length is the
   * target; with no grain labelled good the configured ratio stays and the
   * median good length is 0.
   */
  function Calibrate(gs: seq<Grain>, cfg: Config): (cal: Calibration)
    requires AllWellFormed(gs) && ValidConfig(cfg)
    ensures cal.pxToMm > 0.0
  {
    var goods := GoodLengthsPx(gs);
    assert goods != [] ==> Median(goods) > 0.0 && Div(cfg.targetMedianLengthMm, Median(goods)) > 0.0 by {
      if goods != [] {
        MedianPositive(goods);
        DivPositive(cfg.targetMedianLengthMm, Median(goods));
      }
    }
    var pxToMm := if goods == [] then cfg.pxToMm else Div(cfg.targetMedianLengthMm, Median(goods));
    var medianGood := if goods == [] then 0.0 else Median(Scale(goods, pxToMm));
    var areas := AreasMm2(gs, pxToMm);
    var medianArea := if areas == [] then 0.0 else Median(areas);
    Calibration(pxToMm, medianGood, medianArea)
  }

  /** Dynamic calibration makes the median length of the good grains the configured target. */
  lemma CalibrationHitsTarget(gs: seq<Grain>, cfg: Config)
    requires AllWellFormed(gs) && ValidConfig(cfg)
    requires exists i :: 0 <= i < |gs| && IsGood(gs[i].cls)
    ensures Calibrate(gs, cfg).medianGoodLengthMm == cfg.targetMedianLengthMm
  {
    NoGoodLengths(gs);
    var goods := GoodLengthsPx(gs);
    var m := Median(goods);
    MedianPositive(goods);
    var k := Div(cfg.targetMedianLengthMm, m);
    DivPositive(cfg.targetMedianLengthMm, m);
    assert Calibrate(gs, cfg).medianGoodLengthMm == Median(Scale(goods, k));
    MedianScaled(goods, k);
    DivCancels(cfg.targetMedianLengthMm, m);
  }

  /** Without a grain labelled good, the configured ratio is used and no grain is judged short. */
  lemma CalibrationWithoutGoodGrains(gs: seq<Grain>, cfg: Config)
    requires AllWellFormed(gs) && ValidConfig(cfg)
    requires forall i :: 0 <= i < |gs| ==> !IsGood(gs[i].cls)
    ensures Calibrate(gs, cfg).pxToMm == cfg.pxToMm
    ensures Calibrate(gs, cfg).medianGoodLengthMm == 0.0
  {
    NoGoodLengths(gs);
  }

  // ---------------------------------------------------------------------
  // Classification of one grain.
  // ---------------------------------------------------------------------

  /** Lines 153-158: the raw millimetre sizes, the area relative to the median, the aspect ratio. */
  function Measure(g: Grain, cal: Calibration): (m: Measurement)
    requires WellFormed(g) && cal.pxToMm > 0.0
    ensures m.lengthMmRaw >= m.widthMmRaw > 0.0
  {
    TimesMonotone(g.widthPx, g.lengthPx, cal.pxToMm);
    TimesPositive(g.widthPx, cal.pxToMm);
    var lengthMmRaw := Times(g.lengthPx, cal.pxToMm);
    var widthMmRaw := Times(g.widthPx, cal.pxToMm);
    var areaRatio := if cal.medianAreaMm2 > 0.0 then Div(AreaMm2(g, cal.pxToMm), cal.medianAreaMm2 + Epsilon) else 0.0;
    var aspectRatio := Div(lengthMmRaw, widthMmRaw + Epsilon);
    Measurement(lengthMmRaw, widthMmRaw, areaRatio, aspectRatio)
  }

  /** The relative-length test applied to grains labelled good (line 179). */
  function IsShort(lengthMmRaw: real, cal: Calibration, cfg: Config): (r: bool)
    ensures cal.medianGoodLengthMm == 0.0 ==> !r
    ensures r ==> lengthMmRaw < cfg.brokenRelativeLength * cal.medianGoodLengthMm
  {
    cal.medianGoodLengthMm != 0.0 && lengthMmRaw < Times(cfg.brokenRelativeLength, cal.medianGoodLengthMm)
  }

  /** Lines 160-185: the counter one grain increments. */
  function Judge(g: Grain, cal: Calibration, cfg: Config): (v: Verdict)
    requires WellFormed(g) && cal.pxToMm > 0.0
    ensures v == Chalky ==> IsChalky(g.cls) && !IsBroken(g.cls)
    ensures v == Good ==> IsGood(g.cls) && !IsBroken(g.cls) && !IsChalky(g.cls)
    ensures v == Broken ==> IsBroken(g.cls) || IsGood(g.cls)
    ensures v == Skipped ==> !IsBroken(g.cls) && !IsChalky(g.cls) && !IsGood(g.cls)
    ensures IsForeign(g.cls) ==> v == Foreign
  {
    var m := Measure(g, cal);
    if IsForeign(g.cls) || IsForeignByGeometry(m.widthMmRaw, m.aspectRatio, m.areaRatio) then Foreign
    else if IsBroken(g.cls) then Broken
    else if IsChalky(g.cls) then Chalky
    else if IsGood(g.cls) then (if IsShort(m.lengthMmRaw, cal, cfg) then Broken else Good)
    else Skipped
  }

  /** Foreign matter, by label or by geometry, takes precedence over every other label. */
  lemma ForeignFirst(g: Grain, cal: Calibration, cfg: Config)
    requires WellFormed(g) && cal.pxToMm > 0.0
    ensures var m := Measure(g, cal);
      Judge(g, cal, cfg) == Foreign <==>
        IsForeign(g.cls) || m.widthMmRaw >= 4.0 || m.aspectRatio <= 1.15 || m.areaRatio >= 4.0
  {
  }

  /** A grain labelled broken that is not foreign is broken, whatever its length. */
  lemma LabelledBrokenIsBroken(g: Grain, cal: Calibration, cfg: Config)
    requires WellFormed(g) && cal.pxToMm > 0.0
    requires IsBroken(g.cls) && Judge(g, cal, cfg) != Foreign
    ensures Judge(g, cal, cfg) == Broken
  {
  }

  /** A grain labelled chalky (and not broken or foreign) is chalky. */
  lemma LabelledChalkyIsChalky(g: Grain, cal: Calibration, cfg: Config)
    requires WellFormed(g) && cal.pxToMm > 0.0
    requires IsChalky(g.cls) && !IsBroken(g.cls) && Judge(g, cal, cfg) != Foreign
    ensures Judge(g, cal, cfg) == Chalky
  {
  }

  /**
   * A grain whose only recognised label is good is broken exactly when there
   * is a median good length and the grain is shorter than the configured
   * fraction of it; otherwise it is good.
   */
  lemma LabelledGoodIsGoodOrShort(g: Grain, cal: Calibration, cfg: Config)
    requires WellFormed(g) && cal.pxToMm > 0.0
    requires IsGood(g.cls) && !IsBroken(g.cls) && !IsChalky(g.cls) && Judge(g, cal, cfg) != Foreign
    ensures Judge(g, cal, cfg) == Broken <==>
      cal.medianGoodLengthMm != 0.0 &&
      Measure(g, cal).lengthMmRaw < cfg.brokenRelativeLength * cal.medianGoodLengthMm
    ensures Judge(g, cal, cfg) != Broken ==> Judge(g, cal, cfg) == Good
  {
  }

  /** A grain with no recognised label and no foreign geometry is skipped. */
  lemma UnrecognisedIsSkipped(g: Grain, cal: Calibration, cfg: Config)
    requires WellFormed(g) && cal.pxToMm > 0.0
    requires !IsBroken(g.cls) && !IsChalky(g.cls) && !IsGood(g.cls) && Judge(g, cal, cfg) != Foreign
    ensures Judge(g, cal, cfg) == Skipped
  {
  }

  // ---------------------------------------------------------------------
  // Tally and recorded dimensions over the whole list.
  // ---------------------------------------------------------------------

  /** The grains whose dimensions are recorded: those counted good, broken or chalky. */
  predicate Recorded(v: Verdict)
  {
    v == Good || v == Broken || v == Chalky
  }

  /** The counters after the classification loop has seen `gs`. */
  function Tally(gs: seq<Grain>, cal: Calibration, cfg: Config): (c: Counts)
    requires AllWellFormed(gs) && cal.pxToMm > 0.0
  {
    if gs == [] then Counts(0, 0, 0, 0)
    else Tally(gs[..|gs| - 1], cal, cfg).Add(Judge(gs[|gs| - 1], cal, cfg))
  }

  /** `lengths_mm`: the clamped length of every recorded grain, in order. */
  function Lengths(gs: seq<Grain>, cal: Calibration, cfg: Config): seq<real>
    requires AllWellFormed(gs) && cal.pxToMm > 0.0
  {
    if gs == [] then []
    else
      var g := gs[|gs| - 1];
      var init := Lengths(gs[..|gs| - 1], cal, cfg);
      if Recorded(Judge(g, cal, cfg))
      then init + [Clamp(Measure(g, cal).lengthMmRaw, cfg.lengthMinMm, cfg.lengthMaxMm)]
      else init
  }

  /** `widths_mm`: the corrected, clamped width of every recorded grain, in order. */
  function Widths(gs: seq<Grain>, cal: Calibration, cfg: Config): seq<real>
    requires AllWellFormed(gs) && cal.pxToMm > 0.0
  {
    if gs == [] then []
    else
      var g := gs[|gs| - 1];
      var init := Widths(gs[..|gs| - 1], cal, cfg);
      if Recorded(Judge(g, cal, cfg))
      then init + [Clamp(Times(Measure(g, cal).widthMmRaw, cfg.widthCorrection), cfg.widthMinMm, cfg.widthMaxMm)]
      else init
  }

  /**
   * Each grain increments at most one counter: the counters are non-negative
   * and add up to the number of grains that were not skipped.
   */
  lemma {:induction false} TallyCountsEachGrainOnce(gs: seq<Grain>, cal: Calibration, cfg: Config)
    requires AllWellFormed(gs) && cal.pxToMm > 0.0
    ensures var c := Tally(gs, cal, cfg);
      c.good >= 0 && c.broken >= 0 && c.chalky >= 0 && c.foreign >= 0 &&
      c.Total() + c.foreign == |gs| - |Skips(gs, cal, cfg)|
  {
    if gs != [] {
      TallyCountsEachGrainOnce(gs[..|gs| - 1], cal, cfg);
    }
  }

  /** The positions of the grains the classification loop skips. */
  function Skips(gs: seq<Grain>, cal: Calibration, cfg: Config): (ks: seq<nat>)
    requires AllWellFormed(gs) && cal.pxToMm > 0.0
    ensures |ks| <= |gs|
    ensures forall k :: 0 <= k < |ks| ==> ks[k] < |gs| && Judge(gs[ks[k]], cal, cfg) == Skipped
    ensures forall k :: 0 <= k < |gs| && Judge(gs[k], cal, cfg) == Skipped ==> k in ks
    ensures forall a, b :: 0 <= a < b < |ks| ==> ks[a] < ks[b]
  {
    if gs == [] then []
    else
      var init := Skips(gs[..|gs| - 1], cal, cfg);
      if Judge(gs[|gs| - 1], cal, cfg) == Skipped then init + [|gs| - 1] else init
  }

  /** `lengths_mm` and `widths_mm` have one entry per grain counted good, broken or chalky. */
  lemma {:induction false} DimensionsMatchTally(gs: seq<Grain>, cal: Calibration, cfg: Config)
    requires AllWellFormed(gs) && cal.pxToMm > 0.0
    ensures |Lengths(gs, cal, cfg)| == |Widths(gs, cal, cfg)| == Tally(gs, cal, cfg).Total()
  {
    if gs != [] {
      DimensionsMatchTally(gs[..|gs| - 1], cal, cfg);
    }
  }

  /** Every recorded length and width lies in its clamp range. */
  lemma {:induction false} DimensionsInRange(gs: seq<Grain>, cal: Calibration, cfg: Config)
    requires AllWellFormed(gs) && cal.pxToMm > 0.0
    requires cfg.lengthMinMm <= cfg.lengthMaxMm && cfg.widthMinMm <= cfg.widthMaxMm
    ensures forall i :: 0 <= i < |Lengths(gs, cal, cfg)| ==>
      cfg.lengthMinMm <= Lengths(gs, cal, cfg)[i] <= cfg.lengthMaxMm
    ensures forall i :: 0 <= i < |Widths(gs, cal, cfg)| ==>
      cfg.widthMinMm <= Widths(gs, cal, cfg)[i] <= cfg.widthMaxMm
  {
    if gs != [] {
      DimensionsInRange(gs[..|gs| - 1], cal, cfg);
    }
  }

  /** Without a chalky label on any grain, the chalky counter stays 0. */
  lemma {:induction false} NoChalkyLabelNoChalky(gs: seq<Grain>, cal: Calibration, cfg: Config)
    requires AllWellFormed(gs) && cal.pxToMm > 0.0
    requires forall i :: 0 <= i < |gs| ==> !IsChalky(gs[i].cls)
    ensures Tally(gs, cal, cfg).chalky == 0
  {
    if gs != [] {
      NoChalkyLabelNoChalky(gs[..|gs| - 1], cal, cfg);
    }
  }

  // ---------------------------------------------------------------------
  // Chalky correction and the summary.
  // ---------------------------------------------------------------------

  /** Python's `int(x)` on a float: truncation toward zero. */
  function Trunc(x: real): (n: int)
    ensures x >= 0.0 ==> n as real <= x < n as real + 1.0
    ensures x < 0.0 ==> n as real - 1.0 < x <= n as real
  {
    if x >= 0.0 then x.Floor else -((-x).Floor)
  }

  /**
   * Lines 192-200: when there are grains, the chalky count is capped at
   * `int(ratio * total)` and the excess is counted good instead.
   */
  function CorrectChalky(c: Counts, ratio: real): (r: Counts)
    ensures r.Total() == c.Total()
    ensures r.good + r.chalky == c.good + c.chalky
    ensures r.broken == c.broken && r.foreign == c.foreign
    ensures r.chalky <= c.chalky
    ensures c.Total() > 0 ==> r.chalky <= Trunc(Times(ratio, c.Total() as real))
    ensures r.chalky == c.chalky || r.chalky == Trunc(Times(ratio, c.Total() as real))
    ensures c.Total() <= 0 ==> r == c
  {
    var total := c.Total();
    if total > 0 && c.chalky > Trunc(Times(ratio, total as real)) then
      var excess := c.chalky - Trunc(Times(ratio, total as real));
      c.(chalky := c.chalky - excess, good := c.good + excess)
    else c
  }

  /** With a non-negative ratio the corrected chalky count is at most the floor of ratio times total. */
  lemma ChalkyCapped(c: Counts, ratio: real)
    requires c.good >= 0 && c.broken >= 0 && c.chalky >= 0 && ratio >= 0.0
    ensures var r := CorrectChalky(c, ratio);
      0 <= r.chalky <= Times(ratio, c.Total() as real).Floor && r.good >= c.good
  {
    var r := CorrectChalky(c, ratio);
    if c.Total() > 0 {
      assert Times(ratio, c.Total() as real) >= 0.0;
    }
  }

  /** The whole analysis of a list of kept grains. */
  function Summary(gs: seq<Grain>, cfg: Config): (s: AnalysisResult)
    requires AllWellFormed(gs) && ValidConfig(cfg)
    ensures s.totalGrains == s.goodGrains + s.brokenGrains + s.chalkyGrains
    ensures s.totalGrains >= 0 && s.brokenGrains >= 0 && s.foreignMatter >= 0
    ensures s.totalGrains + s.foreignMatter <= |gs|
  {
    var cal := Calibrate(gs, cfg);
    var c := Tally(gs, cal, cfg);
    TallyCountsEachGrainOnce(gs, cal, cfg);
    var k := CorrectChalky(c, cfg.maxChalkyRatio);
    var ls := Lengths(gs, cal, cfg);
    var ws := Widths(gs, cal, cfg);
    AnalysisResult(
      c.Total(), k.good, k.broken, k.foreign, k.chalky,
      if ls != [] then Median(ls) else cfg.lengthMinMm,
      if ws != [] then Median(ws) else cfg.widthMinMm)
  }

  /**
   * The reported counts: the total excludes foreign matter and is the sum of
   * the good, broken and chalky counts, before and after the chalky cap;
   * broken and foreign counts are the classification loop's.
   */
  lemma SummaryCounts(gs: seq<Grain>, cfg: Config)
    requires AllWellFormed(gs) && ValidConfig(cfg)
    ensures var s := Summary(gs, cfg);
      var c := Tally(gs, Calibrate(gs, cfg), cfg);
      && s.totalGrains == s.goodGrains + s.brokenGrains + s.chalkyGrains == c.Total()
      && s.brokenGrains == c.broken && s.foreignMatter == c.foreign
      && s.goodGrains + s.chalkyGrains == c.good + c.chalky
      && s.chalkyGrains <= c.chalky
      && s.brokenGrains >= 0 && s.foreignMatter >= 0
      && (cfg.maxChalkyRatio >= 0.0 ==>
           0 <= s.chalkyGrains <= Times(cfg.maxChalkyRatio, s.totalGrains as real).Floor && s.goodGrains >= 0)
  {
    var cal := Calibrate(gs, cfg);
    var c := Tally(gs, cal, cfg);
    TallyCountsEachGrainOnce(gs, cal, cfg);
    if cfg.maxChalkyRatio >= 0.0 {
      ChalkyCapped(c, cfg.maxChalkyRatio);
    }
  }

  /**
   * The number of recorded dimensions is the reported total, and when nothing
   * was recorded the reported averages are the configured minima.
   */
  lemma SummaryAveragesFallBack(gs: seq<Grain>, cfg: Config)
    requires AllWellFormed(gs) && ValidConfig(cfg)
    ensures var cal := Calibrate(gs, cfg);
      && |Lengths(gs, cal, cfg)| == |Widths(gs, cal, cfg)| == Summary(gs, cfg).totalGrains
      && (Summary(gs, cfg).totalGrains == 0 ==>
            Summary(gs, cfg).avgGrainLengthMm == cfg.lengthMinMm &&
            Summary(gs, cfg).avgGrainWidthMm == cfg.widthMinMm)
  {
    DimensionsMatchTally(gs, Calibrate(gs, cfg), cfg);
  }

  /** The reported length and width always lie in their clamp ranges. */
  lemma SummaryAveragesInRange(gs: seq<Grain>, cfg: Config)
    requires AllWellFormed(gs) && ValidConfig(cfg)
    requires cfg.lengthMinMm <= cfg.lengthMaxMm && cfg.widthMinMm <= cfg.widthMaxMm
    ensures cfg.lengthMinMm <= Summary(gs, cfg).avgGrainLengthMm <= cfg.lengthMaxMm
    ensures cfg.widthMinMm <= Summary(gs, cfg).avgGrainWidthMm <= cfg.widthMaxMm
  {
    var cal := Calibrate(gs, cfg);
    var ls := Lengths(gs, cal, cfg);
    var ws := Widths(gs, cal, cfg);
    DimensionsInRange(gs, cal, cfg);
    if ls != [] {
      MedianWithin(ls, cfg.lengthMinMm, cfg.lengthMaxMm);
    }
    if ws != [] {
      MedianWithin(ws, cfg.widthMinMm, cfg.widthMaxMm);
    }
  }

  /** No detection: every count is 0 and the averages are the configured minima. */
  lemma EmptySummary(cfg: Config)
    requires ValidConfig(cfg)
    ensures Summary([], cfg) == AnalysisResult(0, 0, 0, 0, 0, cfg.lengthMinMm, cfg.widthMinMm)
  {
  }

  // ---------------------------------------------------------------------
  // The pipeline as the source runs it.
  // ---------------------------------------------------------------------

  /** Lines 123-132: keep the predictions with positive sides, longer side as length. */
  method KeepGrains(preds: seq<Prediction>) returns (grains: seq<Grain>)
    ensures grains == Retained(preds)
  {
    grains := [];
    for i := 0 to |preds|
      invariant grains == Retained(preds[..i])
    {
      assert preds[..i + 1][..i] == preds[..i];
      var w, h := preds[i].width, preds[i].height;
      if w <= 0.0 || h <= 0.0 {
        continue;
      }
      grains := grains + [Grain(Norm(preds[i].cls), Max(w, h), Min(w, h))];
    }
    assert preds[..|preds|] == preds;
  }

  /** One more grain extends the counters, lengths and widths by that grain's verdict. */
  lemma ClassifyStep(gs: seq<Grain>, i: nat, cal: Calibration, cfg: Config)
    requires AllWellFormed(gs) && cal.pxToMm > 0.0 && i < |gs|
    ensures var v := Judge(gs[i], cal, cfg);
      var m := Measure(gs[i], cal);
      && Tally(gs[..i + 1], cal, cfg) == Tally(gs[..i], cal, cfg).Add(v)
      && Lengths(gs[..i + 1], cal, cfg) ==
           (if Recorded(v) then Lengths(gs[..i], cal, cfg) + [Clamp(m.lengthMmRaw, cfg.lengthMinMm, cfg.lengthMaxMm)]
            else Lengths(gs[..i], cal, cfg))
      && Widths(gs[..i + 1], cal, cfg) ==
           (if Recorded(v) then Widths(gs[..i], cal, cfg) + [Clamp(Times(m.widthMmRaw, cfg.widthCorrection), cfg.widthMinMm, cfg.widthMaxMm)]
            else Widths(gs[..i], cal, cfg))
  {
    assert gs[..i + 1][..i] == gs[..i];
  }

  /**
   * Lines 151-190: classify every grain under the calibration, incrementing
   * at most one counter per grain and recording the dimensions of the grains counted
   * good, broken or chalky.
   */
  method ClassifyGrains(grains: seq<Grain>, cal: Calibration, cfg: Config)
    returns (counts: Counts, lengthsMm: seq<real>, widthsMm: seq<real>)
    requires AllWellFormed(grains) && cal.pxToMm > 0.0
    ensures counts == Tally(grains, cal, cfg)
    ensures lengthsMm == Lengths(grains, cal, cfg)
    ensures widthsMm == Widths(grains, cal, cfg)
  {
    var good, broken, chalky, foreign := 0, 0, 0, 0;
    lengthsMm, widthsMm := [], [];
    for i := 0 to |grains|
      invariant Counts(good, broken, chalky, foreign) == Tally(grains[..i], cal, cfg)
      invariant lengthsMm == Lengths(grains[..i], cal, cfg)
      invariant widthsMm == Widths(grains[..i], cal, cfg)
    {
      ClassifyStep(grains, i, cal, cfg);
      var g := grains[i];
      ghost var m := Measure(g, cal);
      ghost var v := Judge(g, cal, cfg);
      var cls := g.cls;
      var lengthMmRaw := Times(g.lengthPx, cal.pxToMm);
      var widthMmRaw := Times(g.widthPx, cal.pxToMm);
      var areaMm2 := Times(Times(g.lengthPx, g.widthPx), Times(cal.pxToMm, cal.pxToMm));
      var areaRatio := if cal.medianAreaMm2 > 0.0 then Div(areaMm2, cal.medianAreaMm2 + Epsilon) else 0.0;
      assert widthMmRaw == m.widthMmRaw;
      var aspectRatio := Div(lengthMmRaw, widthMmRaw + Epsilon);
      assert m == Measurement(lengthMmRaw, widthMmRaw, areaRatio, aspectRatio);

      if IsForeign(cls) || IsForeignByGeometry(widthMmRaw, aspectRatio, areaRatio) {
        assert v == Foreign;
        foreign := foreign + 1;
        continue;
      }
      if IsBroken(cls) {
        assert v == Broken;
        broken := broken + 1;
      } else if IsChalky(cls) {
        assert v == Chalky;
        chalky := chalky + 1;
      } else if IsGood(cls) {
        if cal.medianGoodLengthMm != 0.0 && lengthMmRaw < Times(cfg.brokenRelativeLength, cal.medianGoodLengthMm) {
          assert v == Broken;
          broken := broken + 1;
        } else {
          assert v == Good;
          good := good + 1;
        }
      } else {
        assert v == Skipped;
        continue;
      }
      lengthsMm := lengthsMm + [Clamp(lengthMmRaw, cfg.lengthMinMm, cfg.lengthMaxMm)];
      widthsMm := widthsMm + [Clamp(Times(widthMmRaw, cfg.widthCorrection), cfg.widthMinMm, cfg.widthMaxMm)];
    }
    assert grains[..|grains|] == grains;
    counts := Counts(good, broken, chalky, foreign);
  }

  /** `good_lengths_px` (line 138), built by appending. */
  method CollectGoodLengths(grains: seq<Grain>) returns (goodLengthsPx: seq<real>)
    ensures goodLengthsPx == GoodLengthsPx(grains)
  {
    goodLengthsPx := [];
    for i := 0 to |grains|
      invariant goodLengthsPx == GoodLengthsPx(grains[..i])
    {
      assert grains[..i + 1][..i] == grains[..i];
      if IsGood(grains[i].cls) {
        goodLengthsPx := goodLengthsPx + [grains[i].lengthPx];
      }
    }
    assert grains[..|grains|] == grains;
  }

  /** `areas_mm2` (line 148), built by appending. */
  method CollectAreas(grains: seq<Grain>, pxToMm: real) returns (areasMm2: seq<real>)
    ensures areasMm2 == AreasMm2(grains, pxToMm)
  {
    areasMm2 := [];
    for i := 0 to |grains|
      invariant areasMm2 == AreasMm2(grains[..i], pxToMm)
    {
      assert grains[..i + 1][..i] == grains[..i];
      areasMm2 := areasMm2 + [AreaMm2(grains[i], pxToMm)];
    }
    assert grains[..|grains|] == grains;
  }

  /** The dynamic-calibration step of `analyze_with_roboflow`. */
  method CalibrateGrains(grains: seq<Grain>, cfg: Config) returns (cal: Calibration)
    requires AllWellFormed(grains) && ValidConfig(cfg)
    ensures cal == Calibrate(grains, cfg)
  {
    var goodLengthsPx := CollectGoodLengths(grains);
    var pxToMm := cfg.pxToMm;
    if goodLengthsPx != [] {
      MedianPositive(goodLengthsPx);
      DivPositive(cfg.targetMedianLengthMm, Median(goodLengthsPx));
      pxToMm := Div(cfg.targetMedianLengthMm, Median(goodLengthsPx));
    }
    var medianGoodLen := if goodLengthsPx != [] then Median(Scale(goodLengthsPx, pxToMm)) else 0.0;
    var areasMm2 := CollectAreas(grains, pxToMm);
    var medianArea := if areasMm2 != [] then Median(areasMm2) else 0.0;
    cal := Calibration(pxToMm, medianGoodLen, medianArea);
  }

  /** The chalky sanity correction, applied to the loop's counts. */
  method CapChalky(counts: Counts, ratio: real) returns (capped: Counts)
    ensures capped == CorrectChalky(counts, ratio)
  {
    capped := counts;
    var total := capped.good + capped.broken + capped.chalky;
    if total > 0 {
      var maxChalky := Trunc(Times(ratio, total as real));
      if capped.chalky > maxChalky {
        var excess := capped.chalky - maxChalky;
        capped := capped.(chalky := capped.chalky - excess);
        capped := capped.(good := capped.good + excess);
      }
    }
  }

  /**
   * `analyze_with_roboflow` after inference: filter, calibrate, classify,
   * correct the chalky count in place and report medians.
   */
  method Analyze(preds: seq<Prediction>, cfg: Config) returns (res: AnalysisResult)
    requires ValidConfig(cfg)
    ensures res == Summary(Retained(preds), cfg)
  {
    var grains := KeepGrains(preds);
    var cal := CalibrateGrains(grains, cfg);
    var counts, lengthsMm, widthsMm := ClassifyGrains(grains, cal, cfg);
    var total := counts.good + counts.broken + counts.chalky;
    counts := CapChalky(counts, cfg.maxChalkyRatio);
    res := AnalysisResult(
      total, counts.good, counts.broken, counts.foreign, counts.chalky,
      if lengthsMm != [] then Median(lengthsMm) else cfg.lengthMinMm,
      if widthsMm != [] then Median(widthsMm) else cfg.widthMinMm);
  }
}

=== FILE: stats.dfy ===
/**
 * The median reducer used by the analysis pipeline (numpy's `median`, which
 * the pipeline calls on plain lists of measurements): the middle element of
 * the sorted list, or the mean of the two middle elements when the list has
 * even length. Measurements are idealised as `real`.
 */
module Stats {

  predicate IsSorted(s: seq<real>)
  {
    forall i, j :: 0 <= i < j < |s| ==> s[i] <= s[j]
  }

  /** Inserts `x` into a list, before the first element not smaller than it. */
  function Insert(x: real, s: seq<real>): (r: seq<real>)
    ensures |r| == |s| + 1
  {
    if s == [] || x <= s[0] then [x] + s else [s[0]] + Insert(x, s[1..])
  }

  lemma {:induction false} InsertPermutes(x: real, s: seq<real>)
    ensures multiset(Insert(x, s)) == multiset(s) + multiset{x}
  {
    if s != [] && !(x <= s[0]) {
      InsertPermutes(x, s[1..]);
      assert s == [s[0]] + s[1..];
    }
  }

  lemma {:induction false} InsertKeepsSorted(x: real, s: seq<real>)
    requires IsSorted(s)
    ensures IsSorted(Insert(x, s))
  {
    if s != [] && !(x <= s[0]) {
      var t := Insert(x, s[1..]);
      InsertKeepsSorted(x, s[1..]);
      InsertPermutes(x, s[1..]);
      forall k | 0 <= k < |t|
        ensures s[0] <= t[k]
      {
        assert t[k] in multiset(t);
        if t[k] != x {
          assert t[k] in multiset(s[1..]);
          assert t[k] in s[1..];
        }
      }
    }
  }

  /** Sorts a list into ascending order (the order `np.median` looks at). */
  function Sort(s: seq<real>): (r: seq<real>)
    ensures |r| == |s|
  {
    if s == [] then [] else Insert(s[0], Sort(s[1..]))
  }

  /** `Sort` returns an ascending permutation of its input. */
  lemma {:induction false} SortSorts(s: seq<real>)
    ensures IsSorted(Sort(s))
    ensures multiset(Sort(s)) == multiset(s)
  {
    if s != [] {
      SortSorts(s[1..]);
      InsertKeepsSorted(s[0], Sort(s[1..]));
      InsertPermutes(s[0], Sort(s[1..]));
      assert s == [s[0]] + s[1..];
    }
  }

  /** The middle of an already sorted list: its middle element, or the mean of the two. */
  function Middle(t: seq<real>): (m: real)
    requires |t| > 0
    ensures IsSorted(t) ==> t[(|t| - 1) / 2] <= m <= t[|t| / 2]
    ensures |t| % 2 == 1 ==> m == t[|t| / 2]
  {
    var n := |t|;
    if n % 2 == 1 then t[n / 2] else (t[n / 2 - 1] + t[n / 2]) / 2.0
  }

  /** The median of a non-empty list. */
  function Median(s: seq<real>): (m: real)
    requires |s| > 0
    ensures exists lo, hi :: lo in s && hi in s && lo <= m <= hi
  {
    var t := Sort(s);
    var n := |t|;
    SortSorts(s);
    assert t[n / 2] in multiset(s);
    assert t[(n - 1) / 2] in multiset(s);
    assert t[n / 2] in s && t[(n - 1) / 2] in s;
    Middle(t)
  }

  lemma HeadIsLeast(s: seq<real>, x: real)
    requires IsSorted(s) && x in multiset(s)
    ensures s[0] <= x
  {
    var i :| 0 <= i < |s| && s[i] == x;
  }

  lemma SortedTail(s: seq<real>)
    requires IsSorted(s) && |s| > 0
    ensures IsSorted(s[1..])
  {
    forall i, j | 0 <= i < j < |s| - 1 ensures s[1..][i] <= s[1..][j] {
      assert s[1..][i] == s[i + 1] && s[1..][j] == s[j + 1];
    }
  }

  lemma TailMultiset(s: seq<real>)
    requires |s| > 0
    ensures multiset(s[1..]) == multiset(s) - multiset{s[0]}
  {
    assert s == [s[0]] + s[1..];
  }

  lemma SameHeadSameTail(s: seq<real>, t: seq<real>)
    requires |s| > 0 && |t| > 0 && s[0] == t[0] && s[1..] == t[1..]
    ensures s == t
  {
    assert s == [s[0]] + s[1..] && t == [t[0]] + t[1..];
  }

  /** Two ascending lists holding the same elements are the same list. */
  lemma {:induction false} SortedUnique(s: seq<real>, t: seq<real>)
    requires IsSorted(s) && IsSorted(t) && multiset(s) == multiset(t)
    ensures s == t
  {
    assert |s| == |t| by {
      assert |s| == |multiset(s)| && |t| == |multiset(t)|;
    }
    if s != [] {
      HeadIsLeast(s, t[0]);
      HeadIsLeast(t, s[0]);
      var x := s[0];
      assert t[0] == x;
      TailMultiset(s);
      TailMultiset(t);
      assert multiset(s[1..]) == multiset(t[1..]);
      SortedTail(s);
      SortedTail(t);
      SortedUnique(s[1..], t[1..]);
      SameHeadSameTail(s, t);
    }
  }

  /** The median depends only on the values, not on the order in which they are listed. */
  lemma MedianIgnoresOrder(s: seq<real>, t: seq<real>)
    requires |s| > 0 && multiset(s) == multiset(t)
    ensures |t| > 0 && Median(s) == Median(t)
  {
    assert |s| == |multiset(s)| == |multiset(t)| == |t|;
    SortSorts(s);
    SortSorts(t);
    SortedUnique(Sort(s), Sort(t));
    assert Median(s) == Middle(Sort(s));
    assert Median(t) == Middle(Sort(t));
  }

  /** `x * k`, named so that lemmas can be stated about the products of measurements. */
  function Times(x: real, k: real): real
  {
    x * k
  }

  lemma TimesMonotone(x: real, y: real, k: real)
    requires k > 0.0
    ensures x <= y <==> Times(x, k) <= Times(y, k)
  {
    if x <= y {
      assert (y - x) * k >= 0.0;
    } else {
      assert (x - y) * k > 0.0;
    }
  }

  /** Every element of `s` multiplied by `k`, in the same order. */
  function Scale(s: seq<real>, k: real): (r: seq<real>)
    ensures |r| == |s|
  {
    if s == [] then [] else [Times(s[0], k)] + Scale(s[1..], k)
  }

  lemma {:induction false} ScaleAt(s: seq<real>, k: real, i: int)
    requires 0 <= i < |s|
    ensures Scale(s, k)[i] == s[i] * k
  {
    if i > 0 {
      ScaleAt(s[1..], k, i - 1);
    }
  }

  lemma ScaleCons(a: real, t: seq<real>, k: real)
    ensures Scale([a] + t, k) == [Times(a, k)] + Scale(t, k)
  {
    assert ([a] + t)[0] == a;
    assert ([a] + t)[1..] == t;
  }

  /** Scaling by a positive factor commutes with inserting into a list. */
  lemma {:induction false} InsertScaled(x: real, s: seq<real>, k: real)
    requires k > 0.0
    ensures Insert(Times(x, k), Scale(s, k)) == Scale(Insert(x, s), k)
  {
    if s == [] {
      ScaleCons(x, [], k);
    } else {
      TimesMonotone(x, s[0], k);
      if x <= s[0] {
        ScaleCons(x, s, k);
      } else {
        InsertScaled(x, s[1..], k);
        ScaleCons(s[0], Insert(x, s[1..]), k);
      }
    }
  }

  /** Scaling by a positive factor commutes with sorting. */
  lemma {:induction false} SortScaled(s: seq<real>, k: real)
    requires k > 0.0
    ensures Sort(Scale(s, k)) == Scale(Sort(s), k)
  {
    if s != [] {
      SortScaled(s[1..], k);
      InsertScaled(s[0], Sort(s[1..]), k);
    }
  }

  lemma MiddleScaled(t: seq<real>, k: real)
    requires |t| > 0
    ensures Middle(Scale(t, k)) == Times(Middle(t), k)
  {
    var n := |t|;
    var u := Scale(t, k);
    ScaleAt(t, k, n / 2);
    if n % 2 == 1 {
      assert Middle(u) == u[n / 2];
      assert Middle(t) == t[n / 2];
    } else {
      ScaleAt(t, k, n / 2 - 1);
      var a, b := t[n / 2 - 1], t[n / 2];
      assert Middle(u) == (a * k + b * k) / 2.0;
      assert Middle(t) == (a + b) / 2.0;
      assert (a * k + b * k) / 2.0 == ((a + b) / 2.0) * k;
    }
  }

  /** Scaling every measurement by a positive factor scales the median by it. */
  lemma MedianScaled(s: seq<real>, k: real)
    requires |s| > 0 && k > 0.0
    ensures Median(Scale(s, k)) == Times(Median(s), k)
  {
    var t := Sort(s);
    assert Median(Scale(s, k)) == Middle(Scale(t, k)) by {
      SortScaled(s, k);
    }
    assert Middle(Scale(t, k)) == Times(Middle(t), k) by {
      MiddleScaled(t, k);
    }
    assert Median(s) == Middle(t);
  }

  /** The median of values that all lie in `[lo, hi]` lies in `[lo, hi]`. */
  lemma MedianWithin(s: seq<real>, lo: real, hi: real)
    requires |s| > 0
    requires forall i :: 0 <= i < |s| ==> lo <= s[i] <= hi
    ensures lo <= Median(s) <= hi
  {
    var m := Median(s);
    var a, b :| a in s && b in s && a <= m <= b;
  }

  /** The median of positive values is positive. */
  lemma MedianPositive(s: seq<real>)
    requires |s| > 0
    requires forall i :: 0 <= i < |s| ==> s[i] > 0.0
    ensures Median(s) > 0.0
  {
    var m := Median(s);
    var a, b :| a in s && b in s && a <= m <= b;
  }

  /** A single outlier does not move the median. */
  lemma MedianIgnoresOutlier()
    ensures Median([2.0, 4.0, 4.0, 6.0, 100.0]) == 4.0
  {
    SortStep(100.0, [], []);
    SortStep(6.0, [100.0], [100.0]);
    SortStep(4.0, [6.0, 100.0], [6.0, 100.0]);
    SortStep(4.0, [4.0, 6.0, 100.0], [4.0, 6.0, 100.0]);
    SortStep(2.0, [4.0, 4.0, 6.0, 100.0], [4.0, 4.0, 6.0, 100.0]);
    assert Median([2.0, 4.0, 4.0, 6.0, 100.0]) == Middle([2.0, 4.0, 4.0, 6.0, 100.0]);
  }

  /** An even-length list averages its two middle values. */
  lemma MedianOfEvenLength()
    ensures Median([9.0, 1.0, 3.0, 7.0]) == 5.0
  {
    SortStep(7.0, [], []);
    SortStep(3.0, [7.0], [7.0]);
    SortStep(1.0, [3.0, 7.0], [3.0, 7.0]);
    assert Insert(9.0, [1.0, 3.0, 7.0]) == [1.0, 3.0, 7.0, 9.0] by {
      assert Insert(9.0, [7.0]) == [7.0, 9.0];
      assert Insert(9.0, [3.0, 7.0]) == [3.0, 7.0, 9.0];
    }
    SortStep(9.0, [1.0, 3.0, 7.0], [1.0, 3.0, 7.0]);
    assert Median([9.0, 1.0, 3.0, 7.0]) == Middle([1.0, 3.0, 7.0, 9.0]);
  }

  lemma SortStep(x: real, s: seq<real>, sorted: seq<real>)
    requires Sort(s) == sorted
    ensures Sort([x] + s) == Insert(x, sorted)
  {
    assert ([x] + s)[1..] == s;
  }
}
